=== FILE: README.md ===
# A verified model of tinygrad's Objective-C bridge

tinygrad talks to Apple's Metal stack through a small Python bridge,
`tinygrad/runtime/support/objc.py`. The bridge turns Objective-C method calls into
`objc_msgSend` calls through ctypes:

- It reads each class's methods and their type encodings from the Objective-C runtime.
- It merges those method lists up the superclass chain.
- It decodes each type encoding into a ctypes type.
- It turns a Python attribute name such as `doThing_withValue_` into the selector
  `doThing:withValue:`.
- It converts the Python arguments and sends the message.
- It shapes the result, wrapping returned object pointers and pairing a result with an
  `NSError**` out-parameter.
- It tracks when objects it created are released.

This project models that logic in Dafny. The foreign runtime becomes a value with one
total function per entry point. The send becomes a function parameter. The
decisions the bridge takes itself are stated and proved: decoding, table merging,
argument coercion, thunk construction, result shaping, caching and the lifetime flag.
The foreign calls those decisions lead to, including the nested `NSString` send that
argument coercion makes, are outside the model (see "Left out").

Files:

- `wrappers.dfy`: `Option` and `Result`.
- `type_encoding.dfy`, module `TypeEncoding`:
  - the `SIMPLE_TYPES` table and `objc_type_to_ctype` (`Decode`);
  - a canonical encoder as the decoder's partner;
  - the decoder's laws.
- `introspection.dfy`, module `Introspection`:
  - `dump_objc_methods` and the `while p:` walk of `get_methods_rec`, both as loops proved
    against the recursive specifications `Dump` and `ResolveMethods`;
  - the laws of the merged table: which selectors appear and which level's entry is kept.
- `objc.dfy`, module `Objc`:
  - `convert_arg`, the argument list of `objc_msgSend`, `build_method`'s closure,
    `__getattr__`'s name translation and lookup, and the result shaping of
    `ObjcMethod.__call__`;
  - the `ObjcObject` class, with its `released` flag updated in place;
  - a `Registry` class holding the process-wide state:
    - the three `functools.lru_cache` tables as maps that are hit or extended;
    - the log `sent` of every message handed to the runtime, in order.
    
    Most of its methods are entry points of the bridge. `ShapeReply` and
    `CallWithoutArguments` are parts of `ObjcMethod.__call__`, and `CallAttr` is the
    `obj.name()` statement `__del__` makes.

Where the code departs from Objective-C convention or from its own comments, the model
follows the code:

- **Method-table merge.** In Objective-C, a subclass's implementation of a selector
  overrides its superclass's. `get_methods_rec` (objc.py:72-74) merges with `dict.update`
  while walking upwards, so the ancestor's entry overwrites the subclass's.
  `Introspection.OverrideKeepsAncestorEntry` shows this on a three-class hierarchy.
- **When decoding happens.** `build_method`'s docstring (objc.py:96) says it should run
  only once for each method name. The `lru_cache` does keep one closure per key, but that
  closure decodes the encodings again on every application `f(p)` (objc.py:98-100).
  `MethodBuilder.Apply` calls `BindMethod`, which decodes.
- **Use after free.** The `released` flag is checked only by `convert_arg` (objc.py:8),
  that is, on objects passed as arguments. A released object used as the receiver of a
  call is sent the message unchecked.
- **Class wrappers.** Objective-C class objects live for the whole process, so there is
  nothing for their wrappers to release. `from_classname` (objc.py:117) still sets
  `manual_release=True`, so finalising a class wrapper sends `release` to the class.
- **Double release.** `__del__` (objc.py:130-134) does not look at `released`: each call
  on a manual-release object sends `release` again. CPython runs `__del__` at most once
  per object (PEP 442), so a second `release` needs an explicit second call to
  `obj.__del__()`.
- **Errors on the failure path.** Under the `NSError**` convention, a method reports
  failure by returning `NO` or `nil` and filling in the error. `__call__` pairs the result
  with the error object only when the result is truthy (objc.py:91). On the failure path
  the caller gets the falsy result alone, and the error object is dropped. `Objc.Shape`
  states this: a falsy result is returned as is.

## Model

| member | source | states |
|---|---|---|
| `TypeEncoding.Decode` | tinygrad/runtime/support/objc.py:77-82 | A successful decode is canonical: it contains no pointer to `None`. The empty string, and only it, gives IndexError. A KeyError names a one-character suffix of the input that is missing from the table. ValueError names an unrecognised suffix: longer than one character, with no `^`/`r`/`V` prefix, and not of the `{…=…}` form. |
| `TypeEncoding.DecodeAll` | tinygrad/runtime/support/objc.py:100 | The list comprehension: on success, one decoded type per encoding, in order. On failure, the error of the first encoding that fails, all earlier ones decoding. |
| `TypeEncoding.Encode` | tinygrad/runtime/support/objc.py:46-66 | The canonical encoder, the decoder's partner: every descriptor has a non-empty encoding. |
| `TypeEncoding.DecodeSingle` | tinygrad/runtime/support/objc.py:78 | A one-character encoding decodes to exactly its `SIMPLE_TYPES` entry, or fails with KeyError naming it. |
| `TypeEncoding.SimpleTypeKindCode` | tinygrad/runtime/support/objc.py:46-66 | Each ctypes kind's table key maps back to that kind. |
| `TypeEncoding.DecodeCaret` | tinygrad/runtime/support/objc.py:79 | `^X` decodes to `POINTER(decode(X))` when `X` is non-empty, with `POINTER(None)` being `c_void_p`. Errors in `X` propagate unchanged. |
| `TypeEncoding.DecodePointers` | tinygrad/runtime/support/objc.py:79 | `n` leading carets give `n` pointer wrappers around the decode of the rest. |
| `TypeEncoding.DecodeQualifier` | tinygrad/runtime/support/objc.py:80 | `decode("r"+X) == decode(X)` and `decode("V"+X) == decode(X)` for non-empty `X`. |
| `TypeEncoding.DecodeQualifiers` | tinygrad/runtime/support/objc.py:80 | Any run of `r`/`V` qualifiers in front of a non-empty encoding is discarded. |
| `TypeEncoding.DecodeStructOrUnknown` | tinygrad/runtime/support/objc.py:81-82 | For a multi-character encoding with no `^`/`r`/`V` prefix: the `{…=…}` form is the opaque Structure, and every other form raises ValueError naming it. |
| `TypeEncoding.DecodeEncode` | tinygrad/runtime/support/objc.py:77-82 | Decoding inverts the canonical encoder on every canonical descriptor. |
| `TypeEncoding.DecodeReencode` | tinygrad/runtime/support/objc.py:77-82 | Every successful decode is recovered by decoding its canonical encoding. |
| `Introspection.DumpObjcMethods` | tinygrad/runtime/support/objc.py:27-44 | The loop fills the dict that `Dump` specifies. A `None` list fails the assertion, naming the class. A NULL list with a count of 0 is an empty list and gives an empty dict. |
| `Introspection.MethodsOfLookup` | tinygrad/runtime/support/objc.py:33-39 | A selector is in one class's dump iff some method entry names it. Its signature is that of the last entry naming it. |
| `Introspection.WalkSuperclasses` | tinygrad/runtime/support/objc.py:69-75 | The `while p:` loop with `dict.update` computes exactly `ResolveMethods`, the recursive merge up the superclass chain. |
| `Introspection.ResolveFromFault` | tinygrad/runtime/support/objc.py:72-74 | From any starting class and accumulated dict, the walk fails iff some class on the chain has a `None` list, failing the assertion. The fault names the first such class. |
| `Introspection.ResolveFromEntry` | tinygrad/runtime/support/objc.py:72-75 | From any accumulated dict, a selector is present iff it was already there or some level on the chain defines it. Its entry is that of the last defining level, or the accumulated one when no level defines it. |
| `Introspection.ResolveMethodsOkIff` | tinygrad/runtime/support/objc.py:68-75 | `get_methods_rec(c)` succeeds iff no class from `c` to the root has a `None` list, the value the assertion rejects. |
| `Introspection.ListedRuntimeResolves` | tinygrad/runtime/support/objc.py:29-30 | When `class_copyMethodList` never yields `None`, every `get_methods_rec` succeeds. A class with no methods of its own contributes an empty level. |
| `Introspection.ResolveMethodsEntry` | tinygrad/runtime/support/objc.py:68-75 | The key set is the union of the method lists on the chain. A selector defined at several levels keeps the most distant ancestor's entry. |
| `Introspection.ResolveAgreesWhenOverridesMatch` | tinygrad/runtime/support/objc.py:72-75 | When every defining level agrees on a selector's signature, the merged entry is that signature, so in that case the result matches the subclass-first reading. |
| `Introspection.OverrideKeepsAncestorEntry` | tinygrad/runtime/support/objc.py:72-74 | In a chain C → B → A where both B and C define `foo:`, C's merged table holds B's signature, not C's own. |
| `Objc.ObjcObject.constructor` | tinygrad/runtime/support/objc.py:108-111 | The fields `__init__` sets after its assertion: handle, method table, `manual_release`, and `released` false. |
| `Objc.Utf8` | tinygrad/runtime/support/objc.py:9 | `str.encode()` gives between one and four bytes per character. |
| `Objc.Utf8Ascii` | tinygrad/runtime/support/objc.py:9 | An ASCII string encodes to its own code points, one byte per character. |
| `Objc.ConvertArg` | tinygrad/runtime/support/objc.py:7-12 | Fails iff the argument is a released ObjcObject. Otherwise: a str becomes bytes for a `c_char_p` slot and an NSString for a `c_void_p` slot. Any list, and a tuple only for a `c_void_p` slot, becomes a `c_void_p` array with the same items. Everything else passes through unchanged. |
| `Objc.ConvertArgIdempotent` | tinygrad/runtime/support/objc.py:7-12 | Converting an already converted argument for the same slot changes nothing. |
| `Objc.ConvertArgResult` | tinygrad/runtime/support/objc.py:9-11 | No converted argument is still subject to a coercion rule for its slot. |
| `Objc.EncodeArgs` | tinygrad/runtime/support/objc.py:19 | The zip stops at the shorter list. Each encoded argument is the conversion of its argument for its slot. The encoding fails iff a released object lies within the zipped prefix. |
| `Objc.SelectorName` | tinygrad/runtime/support/objc.py:126 | The selector has the name's length, with every `_` replaced by `:` and every other character kept. |
| `Objc.SelectorNameInjective` | tinygrad/runtime/support/objc.py:126 | A selector never contains `_`. Two names without `:`, as every Python identifier is, translate to the same selector only if they are equal. |
| `Objc.SelectorNameAppend` | tinygrad/runtime/support/objc.py:126 | The translation distributes over concatenation. |
| `Objc.SelectorNameKeeps` | tinygrad/runtime/support/objc.py:126 | A name without `_` is its own selector. |
| `Objc.SelectorNameTwoKeywords` | tinygrad/runtime/support/objc.py:126 | `a_b_` becomes `a:b:` for keywords without `_`. |
| `Objc.SelectorNameExample` | tinygrad/runtime/support/objc.py:126 | `doThing_withValue_` becomes `doThing:withValue:`. |
| `Objc.BindMethod` | tinygrad/runtime/support/objc.py:98-101 | Applying the closure succeeds iff the return encoding and `argtypes[2:]` all decode. The return encoding's error comes first. The method gets the decoded return type and one decoded type per encoding after the first two, skipping the receiver and selector slots. `out_err` holds iff the name ends in `error_`, and `ret_ptr` iff the return encoding is exactly `@`. |
| `Objc.PrototypeMatchesEncodings` | tinygrad/runtime/support/objc.py:18-21 | For a method bound by `build_method`'s closure, the prototype installed for the send has one slot per argument encoding the runtime reported. It has two `c_void_p` slots for the receiver and selector, then each later encoding decoded, in order. |
| `Objc.LookupAttr` | tinygrad/runtime/support/objc.py:125-128 | Lookup fails with AttributeError naming the method iff the translated selector is not in the table. Otherwise the result is exactly `BindMethod` applied to the receiver with that selector's table entry. It binds the method to the receiver under that selector, or fails with the first decode error. |
| `Objc.CallArgs` | tinygrad/runtime/support/objc.py:89 | Without `out_err` the caller's arguments pass unchanged. With it, every argument but the last is passed, then the error cell. |
| `Objc.ErrorCellReachesSend` | tinygrad/runtime/support/objc.py:19 | With `out_err`, the error cell is among the encoded arguments, as the last one and unconverted, iff `zip` keeps its slot. That happens when the caller passed no more arguments than the method has argument types. |
| `Objc.Shape` | tinygrad/runtime/support/objc.py:90-91 | A falsy result is returned as is, never as a pair. A truthy result is wrapped iff `ret_ptr` holds, and paired iff `out_err` holds. The pair's second component is `None` iff the error cell stayed null, and otherwise wraps the cell's pointer. |
| `Objc.MethodBuilder.constructor` | tinygrad/runtime/support/objc.py:98-102 | The closure remembers the four cache-key arguments it was built from. |
| `Objc.Registry.constructor` | tinygrad/runtime/support/objc.py:14-15 | All three caches start empty and nothing has been sent. |
| `Objc.Registry.SelRegisterName` | tinygrad/runtime/support/objc.py:14-15 | Returns the runtime's selector for the name. A hit leaves the cache unchanged and returns the cached token; a miss adds exactly that entry. Every cached entry stays the runtime's answer. |
| `Objc.Registry.GetMethodsRec` | tinygrad/runtime/support/objc.py:68-75 | Returns `ResolveMethods`. A hit returns the earlier table. A miss caches only a table that was built, because an exception is not cached. |
| `Objc.Registry.BuildMethod` | tinygrad/runtime/support/objc.py:94-102 | The same key returns the same closure object. A miss adds exactly one fresh closure. |
| `Objc.Registry.CreateObject` | tinygrad/runtime/support/objc.py:106-111 | A null pointer fails before method resolution, with the caches unchanged. Otherwise the call succeeds iff the class's table resolves, and a failure carries the resolution's fault. The new object has that table and the given `manual_release`, and is not released. The method-table cache is unchanged on a failure or a hit; a miss that resolves adds exactly the class's table. |
| `Objc.Registry.FromClassname` | tinygrad/runtime/support/objc.py:113-117 | An unknown class fails with its name and resolves nothing. A known class is wrapped with `manual_release` set, or fails with the resolution's fault. The method-table cache changes as for `CreateObject` on the class's metaclass. |
| `Objc.Registry.GetAttr` | tinygrad/runtime/support/objc.py:125-128 | Returns `LookupAttr` on the object's table. A failed lookup touches no cache. A found selector adds at most its one build key, even when applying the closure then fails to decode. Cached closures are never replaced. |
| `Objc.Registry.MsgSend` | tinygrad/runtime/support/objc.py:17-22 | A released argument in the zipped prefix fails before the selector is registered and before this send is issued. Otherwise this send appends exactly one request to the log: receiver, registered selector, restype, `[void_p, void_p] + argtypes`, and the encoded arguments. The selector cache then holds the selector's token. The nested `NSString` send that coercing a str makes is not modelled. |
| `Objc.Registry.Wrap` | tinygrad/runtime/support/objc.py:90 | A truthy integer result becomes a fresh ObjcObject with automatic release and its resolved table. A non-integer fails as `c_void_p` does, and a failed resolution carries its fault. The method-table cache changes as for `CreateObject`. |
| `Objc.Registry.Call` | tinygrad/runtime/support/objc.py:87-92 | Sends `CallArgs` through the method's argtypes and logs that one request, with the selector then cached. A released argument stops the call with every cache unchanged. The error cell counts only if it reached the send (`ErrorCellPassed`). Otherwise `err.value` stays None and the pair holds None. The call succeeds iff every object the shaped outcome needs can be built. On success the value is the `Shape` outcome with those objects built, each new and not released. On failure the error is the one the first object that cannot be built raises (`BuildFailure`): the result first, then the error object. `UseAfterFree` is returned iff a released argument stopped the call before the send. The closure cache is untouched. The method-table cache gains only classes of the objects built, and on success all of them. Nested `NSString` sends from argument coercion are not modelled. |
| `Objc.Registry.ShapeReply` | tinygrad/runtime/support/objc.py:90-91 | Succeeds iff every object the `Shape` outcome needs can be built, and then returns that outcome with the objects built. The wrapped result and the error object are each a new ObjcObject that is not released. A failure carries the error of the first object that cannot be built, unchanged: `NotAPointer` for a non-integer result, otherwise the fault of its class's resolution. The method-table cache gains only the classes of those objects, and on success all of them. |
| `Objc.Registry.CallAttr` | tinygrad/runtime/support/objc.py:125-128 | `obj.name()` with no arguments, for a name not ending in `error_`: a failed lookup is reported, and nothing is sent or cached beyond the lookup's closure. A found method sends exactly one argument-less message to the object under the translated selector. The exception reported is exactly `BuildFailure` of the shaped result, so none is reported iff the objects its result needs can be built. |
| `Objc.Registry.CallWithoutArguments` | tinygrad/runtime/support/objc.py:134 | The call `()` on a method without `out_err`: exactly one request with no arguments is logged, and the selector is then cached. The exception reported is `BuildFailure` of the shaped result. |
| `Objc.ClosureSurvivesCall` | tinygrad/runtime/support/objc.py:94-102 | `build_method` returns the same closure object before and after any call through the bridge. |
| `Objc.ReleasedArgumentRefused` | tinygrad/runtime/support/objc.py:7-8 | Passing a released object as a method's first argument fails the use-after-free assertion. Nothing is sent, and no cache changes. |
| `Objc.DisposedArgumentRefused` | tinygrad/runtime/support/objc.py:7-8 | After `__del__` on a manual-release object, passing it to a method with an argument slot fails the use-after-free assertion. The log keeps everything sent before. At most one message is added: an argument-less `release` sent to the object. |
| `Objc.Registry.Dispose` | tinygrad/runtime/support/objc.py:130-134 | The object ends released iff it already was or has `manual_release`. Without `manual_release`, no cache and no log changes. With it, the object is marked released first, and the `release` lookup adds at most its one closure. If the lookup fails (AttributeError or a decode error), that exception is reported and nothing is sent. Otherwise exactly one `release` message with no arguments is sent. The exception reported is `BuildFailure` of the shaped reply, so none is reported iff the objects its result needs can be built. |

## Left out

- The foreign entry points are not modelled: `sel_registerName`, `class_copyMethodList`,
  `method_copy*`, `objc_getClass`, `object_getClass`, `class_getSuperclass`, and the real
  `objc_msgSend`. They are fields of `Introspection.Runtime` or the `send` parameter.
  The model assumes that superclass chains end. It also takes the runtime to be one fixed
  value: classes, method lists and selectors never change while the bridge runs. The
  caches are correct (`Registry.Valid`) only because of that; the Python caches never
  invalidate either, so a class whose methods are added later keeps its stale table.
- Reading C strings out of the method list and freeing the buffers with `libc.free` is
  not modelled. An entry arrives with its strings already read.
- `__repr__`, `__hash__`, `nsstring_to_str` and the module-level `NSString` object are
  display, foreign reads or import-time effects. They are not modelled.
  `NSString.stringWithUTF8String_(s)` is the opaque value `NSStringOf(s)`.
- Objc.ConvertArg: a str for a `c_void_p` slot becomes the opaque `NSStringOf(s)`; the nested call behind it is not modelled (below).
- Objc.EncodeArgs: fails on a released object without the nested sends that earlier str arguments make (below).
- Objc.Registry.MsgSend: the log holds this send only, not the nested sends of str coercion (below).
- Objc.Registry.Call: the log and caches omit the nested sends of str coercion (below).
- The nested call that coercing a str for a `c_void_p` slot makes (objc.py:10) is not
  modelled. In Python that call goes through `__getattr__`, the `build_method` cache,
  `sel_registerName` and its own send, then builds an `ObjcObject` for the result, which resolves the string's class table
  and can fail. Its effects on the caches and the log are not modelled. It happens in
  argument order, so a str before a released object is sent before the use-after-free
  assertion fires, and a successful call sends one message per such str plus its own.
- The identity of ctypes types is not modelled; `CType` is an abstract descriptor.
  - On LP64, ctypes makes `c_longlong` an alias of `c_long` (and the unsigned pair
    likewise). `Kind` keeps them apart.
  - ctypes refuses the placeholder strings `'Class'`, `'SEL'` and `'<unknown-type>'` when
    they are installed as a restype or argtypes. The model lets them through.
- ctypes checks the argument count when the send is called. A call with fewer
  arguments than argument types raises TypeError there, after the selector was
  registered. The model logs such a send as issued.
- ctypes converts each array element when it builds a `c_void_p` array. The model keeps
  the items as they were given.
- When CPython runs `__del__` is not modelled. Release is the explicit `Dispose` call.
  Python ignores an exception raised in `__del__`; `Dispose` reports it instead.
- Python `assert` statements are taken to be enabled. The model makes four of them errors
  that always fire: `UseAfterFree` (objc.py:8), `NoMethodList` (objc.py:30), `NullPointer`
  (objc.py:107) and `ClassNotFound` (objc.py:116). Under `python -O` these checks vanish,
  and the bridge carries on past each of them. A released object is passed to the send,
  and `ObjcObject(0)` or an unknown class name builds an object. Those runs are not
  modelled.
- Introspection.DumpObjcMethods: the model keeps the assertion at objc.py:30 as a failure
  on a `None` list. The bindings that declare `class_copyMethodList` are not part of this
  model. Indexing `methods_ptr[i]` (objc.py:34) needs a ctypes pointer restype. With one,
  a NULL result is a NULL pointer object, never `None`, so the assertion cannot fire. A
  class without methods of its own gives NULL with a count of 0 and adds an empty level.
  `Introspection.ListedRuntimeResolves` states that reading.
- Threads are not modelled. `objc_msgSend` installs each call's prototype on the one shared
  `libobjc.objc_msgSend` (objc.py:21), and the three `lru_cache`s have no locking. Giving
  each `SendRequest` its own prototype is right only with one thread.
- Objc.Utf8: a Dafny `char` cannot hold a lone surrogate. For a str that contains one,
  `str.encode()` (objc.py:9) raises UnicodeEncodeError; the model has no such input.
- Pointer width is not modelled. Handles are unbounded integers, with 0 as NULL.
- Python's rule that `__getattr__` only runs for names with no ordinary attribute is not
  modelled. Names such as `value` or `released` never reach the method table in Python.
- The keyword arguments forwarded by `ObjcMethod.__call__` are not modelled; no caller
  in the bridge passes any.
- `examples/objctest.py` is not part of this model. It is an ad hoc script that depends
  on system frameworks.

=== FILE: introspection.dfy ===
/**
 * Runtime introspection: `dump_objc_methods` (one class's own method list)
 * and `get_methods_rec` (the walk up the superclass chain) of
 * tinygrad/runtime/support/objc.py. The Objective-C runtime itself is a
 * value of type Runtime whose fields stand for the foreign entry points.
 */
module Introspection {
  import opened Wrappers

  /** A raw pointer as the Python code sees it; 0 is NULL (ctypes gives None). */
  type Handle = int

  const Null: Handle := 0

  /** One element of `class_copyMethodList`, its strings already read out. */
  datatype MethodEntry = MethodEntry(selector: string, returnType: string, argTypes: seq<string>)

  /** The (return encoding, argument encodings) pair stored per selector. */
  datatype Signature = Signature(returnType: string, argTypes: seq<string>)

  /** A method table: selector text to signature. */
  type MethodMap = map<string, Signature>

  /**
   * The foreign runtime. `rank` is no entry point: it is the witness that
   * superclass chains end (every class is ranked above its superclass).
   */
  datatype Runtime = Runtime(
    superclass: Handle -> Handle,                   // class_getSuperclass
    rank: Handle -> nat,                            // a bound on the length of the chain above a class
    methodList: Handle -> Option<seq<MethodEntry>>, // class_copyMethodList: None is the value the assertion
                                                    // rejects; a NULL list with count 0 is Some([])
    isa: Handle -> Handle,                          // object_getClass
    classNamed: string -> Handle,                   // objc_getClass; Null for an unknown name
    selectorFor: string -> Handle)                  // sel_registerName

  /** Superclass chains are finite: walking up always reaches Null. */
  ghost predicate WellFormed(rt: Runtime) {
    forall c: Handle :: c != Null && rt.superclass(c) != Null ==> rt.rank(rt.superclass(c)) < rt.rank(c)
  }

  /** The assertion in dump_objc_methods: `class_copyMethodList` gave None for the class. */
  datatype Fault = NoMethodList(cls: Handle)

  function SignatureOf(e: MethodEntry): Signature {
    Signature(e.returnType, e.argTypes)
  }

  /** The dict `dump_objc_methods` fills: later entries overwrite earlier ones. */
  function MethodsOf(entries: seq<MethodEntry>): MethodMap {
    if entries == [] then map[]
    else
      var last := entries[|entries| - 1];
      MethodsOf(entries[..|entries| - 1])[last.selector := SignatureOf(last)]
  }

  /** What dump_objc_methods returns for one class, or the assertion it fails. */
  function Dump(rt: Runtime, cls: Handle): Result<MethodMap, Fault> {
    match rt.methodList(cls)
    case None => Err(NoMethodList(cls))
    case Some(entries) => Ok(MethodsOf(entries))
  }

  /** The class's own methods; empty for a None list (which the walk never reaches). */
  function Level(rt: Runtime, cls: Handle): MethodMap {
    match rt.methodList(cls)
    case None => map[]
    case Some(entries) => MethodsOf(entries)
  }

  /** The classes `get_methods_rec` visits from `c`, in order, up to (excluding) Null. */
  ghost function Chain(rt: Runtime, c: Handle): seq<Handle>
    requires WellFormed(rt)
    decreases c != Null, rt.rank(c)
  {
    if c == Null then [] else [c] + Chain(rt, rt.superclass(c))
  }

  /**
   * The state of `get_methods_rec`'s loop run to completion from `p` with the
   * dict `acc`: each level is merged with `dict.update`, so it overwrites.
   */
  function ResolveFrom(rt: Runtime, p: Handle, acc: MethodMap): Result<MethodMap, Fault>
    requires WellFormed(rt)
    decreases p != Null, rt.rank(p)
  {
    if p == Null then Ok(acc)
    else
      match Dump(rt, p)
      case Err(f) => Err(f)
      case Ok(level) => ResolveFrom(rt, rt.superclass(p), acc + level)
  }

  /** get_methods_rec(c). */
  function ResolveMethods(rt: Runtime, c: Handle): Result<MethodMap, Fault>
    requires WellFormed(rt)
  {
    ResolveFrom(rt, c, map[])
  }

  // ---------------------------------------------------------------------
  // The two loops of the source

  /** dump_objc_methods: fill a dict from the class's method list. */
  method DumpObjcMethods(rt: Runtime, cls: Handle) returns (r: Result<MethodMap, Fault>)
    ensures r == Dump(rt, cls)
  {
    var list := rt.methodList(cls);
    if list.None? {
      return Err(NoMethodList(cls));
    }
    var entries := list.value;
    var methods: MethodMap := map[];
    for i := 0 to |entries|
      invariant methods == MethodsOf(entries[..i])
    {
      assert entries[..i + 1][..i] == entries[..i];
      methods := methods[entries[i].selector := SignatureOf(entries[i])];
    }
    assert entries[..|entries|] == entries;
    return Ok(methods);
  }

  /** The loop of get_methods_rec: walk to the root, merging each level over the last. */
  method WalkSuperclasses(rt: Runtime, c: Handle) returns (r: Result<MethodMap, Fault>)
    requires WellFormed(rt)
    ensures r == ResolveMethods(rt, c)
  {
    var p := c;
    var methods: MethodMap := map[];
    while p != Null
      invariant ResolveFrom(rt, p, methods) == ResolveMethods(rt, c)
      decreases p != Null, rt.rank(p)
    {
      var level := DumpObjcMethods(rt, p);
      if level.Err? {
        return Err(level.error);
      }
      methods := methods + level.value;
      p := rt.superclass(p);
    }
    return Ok(methods);
  }

  // ---------------------------------------------------------------------
  // Properties of one class's dump

  /**
   * A selector is in the dump iff some entry names it, and its signature is
   * that of the last entry that does.
   */
  lemma {:induction false} MethodsOfLookup(entries: seq<MethodEntry>, s: string)
    ensures s in MethodsOf(entries) <==> exists i :: 0 <= i < |entries| && entries[i].selector == s
    ensures s in MethodsOf(entries) ==>
              exists i :: 0 <= i < |entries| && entries[i].selector == s
                          && MethodsOf(entries)[s] == SignatureOf(entries[i])
                          && forall j :: i < j < |entries| ==> entries[j].selector != s
  {
    if entries != [] {
      var n := |entries| - 1;
      var init := entries[..n];
      MethodsOfLookup(init, s);
      assert forall i :: 0 <= i < n ==> init[i] == entries[i];
      if entries[n].selector != s {
        if s in MethodsOf(init) {
          var i :| 0 <= i < n && init[i].selector == s
                   && MethodsOf(init)[s] == SignatureOf(init[i])
                   && forall j :: i < j < n ==> init[j].selector != s;
          assert entries[i].selector == s;
        }
      }
    }
  }

  // ---------------------------------------------------------------------
  // Properties of the superclass walk

  /** No class in `ch` has a None list. */
  ghost predicate AllListed(rt: Runtime, ch: seq<Handle>) {
    forall i :: 0 <= i < |ch| ==> rt.methodList(ch[i]).Some?
  }

  /** `ch[k]` is the first class in `ch` with a None list. */
  ghost predicate FirstUnlisted(rt: Runtime, ch: seq<Handle>, k: int) {
    0 <= k < |ch| && rt.methodList(ch[k]).None? && forall j :: 0 <= j < k ==> rt.methodList(ch[j]).Some?
  }

  /** Some class in `ch` defines `s` itself. */
  ghost predicate DefinedOn(rt: Runtime, ch: seq<Handle>, s: string) {
    exists i :: 0 <= i < |ch| && s in Level(rt, ch[i])
  }

  /** `ch[k]` defines `s` with signature `sig`, and no later class in `ch` defines `s`. */
  ghost predicate LastDefinition(rt: Runtime, ch: seq<Handle>, s: string, k: int, sig: Signature) {
    0 <= k < |ch| && s in Level(rt, ch[k]) && Level(rt, ch[k])[s] == sig
    && forall j :: k < j < |ch| ==> s !in Level(rt, ch[j])
  }

  /** How listing facts about a chain follow from its head and the rest of it. */
  lemma ChainListed(rt: Runtime, p: Handle)
    requires WellFormed(rt) && p != Null
    ensures AllListed(rt, Chain(rt, p)) <==> rt.methodList(p).Some? && AllListed(rt, Chain(rt, rt.superclass(p)))
    ensures rt.methodList(p).None? ==> FirstUnlisted(rt, Chain(rt, p), 0)
    ensures forall k :: rt.methodList(p).Some? && FirstUnlisted(rt, Chain(rt, rt.superclass(p)), k) ==>
                          FirstUnlisted(rt, Chain(rt, p), k + 1)
  {
    var ch, rest := Chain(rt, p), Chain(rt, rt.superclass(p));
    assert ch == [p] + rest;
    assert forall k :: 0 <= k < |rest| ==> rest[k] == ch[k + 1];
    if rt.methodList(p).Some? && AllListed(rt, rest) {
      forall k | 0 <= k < |ch|
        ensures rt.methodList(ch[k]).Some?
      {
        if k > 0 {
          assert ch[k] == rest[k - 1];
        }
      }
    }
    if AllListed(rt, ch) {
      assert ch[0] == p;
      forall k | 0 <= k < |rest|
        ensures rt.methodList(rest[k]).Some?
      {
        assert rest[k] == ch[k + 1];
      }
    }
  }

  /**
   * The walk fails iff some class on the chain has a None list, and then
   * the fault names the first such class.
   */
  lemma {:induction false} ResolveFromFault(rt: Runtime, p: Handle, acc: MethodMap)
    requires WellFormed(rt)
    ensures ResolveFrom(rt, p, acc).Ok? <==> AllListed(rt, Chain(rt, p))
    ensures ResolveFrom(rt, p, acc).Err? ==>
              exists k :: FirstUnlisted(rt, Chain(rt, p), k)
                          && ResolveFrom(rt, p, acc).error == NoMethodList(Chain(rt, p)[k])
    decreases p != Null, rt.rank(p)
  {
    if p != Null {
      var up := rt.superclass(p);
      ChainListed(rt, p);
      if rt.methodList(p).Some? {
        var acc' := acc + Level(rt, p);
        assert ResolveFrom(rt, p, acc) == ResolveFrom(rt, up, acc');
        ResolveFromFault(rt, up, acc');
        if ResolveFrom(rt, up, acc').Err? {
          var rest := Chain(rt, up);
          var k :| FirstUnlisted(rt, rest, k) && ResolveFrom(rt, up, acc').error == NoMethodList(rest[k]);
          assert Chain(rt, p)[k + 1] == rest[k];
        }
      }
    }
  }

  /**
   * The walk's result from `p` with accumulator `acc`: a selector is present
   * iff it was in `acc` or some level on the chain defines it; its entry is
   * the one of the LAST level on the chain that defines it (the most distant
   * ancestor), or `acc`'s when no level does.
   */
  lemma {:induction false} ResolveFromEntry(rt: Runtime, p: Handle, acc: MethodMap, s: string)
    requires WellFormed(rt) && ResolveFrom(rt, p, acc).Ok?
    ensures s in ResolveFrom(rt, p, acc).value <==> s in acc || DefinedOn(rt, Chain(rt, p), s)
    ensures DefinedOn(rt, Chain(rt, p), s) ==>
              exists k :: LastDefinition(rt, Chain(rt, p), s, k, ResolveFrom(rt, p, acc).value[s])
    ensures s in acc && !DefinedOn(rt, Chain(rt, p), s) ==> ResolveFrom(rt, p, acc).value[s] == acc[s]
    decreases p != Null, rt.rank(p)
  {
    if p != Null {
      var up := rt.superclass(p);
      var level := Level(rt, p);
      var acc' := acc + level;
      var ch, rest := Chain(rt, p), Chain(rt, up);
      assert ch == [p] + rest;
      assert forall k :: 0 <= k < |rest| ==> rest[k] == ch[k + 1];
      assert ResolveFrom(rt, p, acc) == ResolveFrom(rt, up, acc');
      ResolveFromEntry(rt, up, acc', s);
      var m := ResolveFrom(rt, p, acc).value;
      assert DefinedOn(rt, ch, s) <==> s in level || DefinedOn(rt, rest, s) by {
        if DefinedOn(rt, ch, s) && s !in level {
          var i :| 0 <= i < |ch| && s in Level(rt, ch[i]);
          assert i > 0 && rest[i - 1] == ch[i];
        }
        if DefinedOn(rt, rest, s) {
          var i :| 0 <= i < |rest| && s in Level(rt, rest[i]);
          assert s in Level(rt, ch[i + 1]);
        }
        if s in level {
          assert s in Level(rt, ch[0]);
        }
      }
      if DefinedOn(rt, rest, s) {
        var k :| LastDefinition(rt, rest, s, k, m[s]);
        assert LastDefinition(rt, ch, s, k + 1, m[s]);
      } else if s in level {
        assert forall j :: 0 < j < |ch| ==> s !in Level(rt, ch[j]) by {
          forall j | 0 < j < |ch| ensures s !in Level(rt, ch[j]) {
            assert ch[j] == rest[j - 1];
          }
        }
        assert LastDefinition(rt, ch, s, 0, m[s]);
      }
    }
  }

  /**
   * get_methods_rec(c): the key set is the union of the method lists of every
   * class from `c` to the root, and a selector defined at several levels keeps
   * the entry of the last level visited, because `dict.update` overwrites.
   */
  lemma ResolveMethodsEntry(rt: Runtime, c: Handle, s: string)
    requires WellFormed(rt) && ResolveMethods(rt, c).Ok?
    ensures s in ResolveMethods(rt, c).value <==> DefinedOn(rt, Chain(rt, c), s)
    ensures s in ResolveMethods(rt, c).value ==>
              exists k :: LastDefinition(rt, Chain(rt, c), s, k, ResolveMethods(rt, c).value[s])
  {
    ResolveFromEntry(rt, c, map[], s);
  }

  /**
   * Where every class on the chain that defines `s` gives it the same
   * signature, the result agrees with the subclass-first reading: it is the
   * entry of any defining class, in particular the nearest.
   */
  lemma ResolveAgreesWhenOverridesMatch(rt: Runtime, c: Handle, s: string, k: nat)
    requires WellFormed(rt) && ResolveMethods(rt, c).Ok?
    requires k < |Chain(rt, c)| && s in Level(rt, Chain(rt, c)[k])
    requires forall j :: 0 <= j < |Chain(rt, c)| && s in Level(rt, Chain(rt, c)[j]) ==>
               Level(rt, Chain(rt, c)[j])[s] == Level(rt, Chain(rt, c)[k])[s]
    ensures s in ResolveMethods(rt, c).value
    ensures ResolveMethods(rt, c).value[s] == Level(rt, Chain(rt, c)[k])[s]
  {
    ResolveMethodsEntry(rt, c, s);
  }

  /** get_methods_rec(c) succeeds iff no class on the chain has a None list. */
  lemma ResolveMethodsOkIff(rt: Runtime, c: Handle)
    requires WellFormed(rt)
    ensures ResolveMethods(rt, c).Ok? <==> AllListed(rt, Chain(rt, c))
  {
    ResolveFromFault(rt, c, map[]);
  }

  /**
   * When `class_copyMethodList` never yields None (a pointer restype returns a
   * NULL pointer object, with count 0 for a class without methods), the
   * assertion never fires and every walk succeeds; a class without methods
   * contributes an empty level.
   */
  lemma {:induction false} ListedRuntimeResolves(rt: Runtime, c: Handle)
    requires WellFormed(rt)
    requires forall k: Handle :: rt.methodList(k).Some?
    ensures ResolveMethods(rt, c).Ok?
  {
    ResolveMethodsOkIff(rt, c);
    var ch := Chain(rt, c);
    forall i | 0 <= i < |ch|
      ensures rt.methodList(ch[i]).Some?
    {
      var k := ch[i];
      assert rt.methodList(k).Some?;
    }
  }

  /**
   * A hierarchy C (3) -> B (2) -> A (1) in which B and C both define `foo:`,
   * with different argument encodings; the other entry points are unused.
   */
  function OverrideRuntime(): Runtime {
    Runtime(
      h => if h == 3 then 2 else if h == 2 then 1 else Null,
      h => if 1 <= h <= 3 then h else 0,
      h => if h == 3 then Some([MethodEntry("foo:", "v", ["@", ":", "i"])])
           else if h == 2 then Some([MethodEntry("foo:", "v", ["@", ":", "@"])])
           else if h == 1 then Some([])
           else None,
      h => Null,
      name => Null,
      sel => Null)
  }

  /**
   * Resolving C's table keeps B's signature for `foo:`, not C's own: the
   * entry of the superclass overwrites the subclass's override.
   */
  lemma OverrideKeepsAncestorEntry()
    ensures WellFormed(OverrideRuntime())
    ensures ResolveMethods(OverrideRuntime(), 3) == Ok(map["foo:" := Signature("v", ["@", ":", "@"])])
  {
    var rt := OverrideRuntime();
    var c := map["foo:" := Signature("v", ["@", ":", "i"])];
    var b := map["foo:" := Signature("v", ["@", ":", "@"])];
    assert MethodsOf([MethodEntry("foo:", "v", ["@", ":", "i"])]) == c;
    assert MethodsOf([MethodEntry("foo:", "v", ["@", ":", "@"])]) == b;
    assert Level(rt, 1) == map[];
    assert ResolveFrom(rt, 3, map[]) == ResolveFrom(rt, 2, map[] + c);
    assert ResolveFrom(rt, 2, map[] + c) == ResolveFrom(rt, 1, map[] + c + b);
    assert ResolveFrom(rt, 1, map[] + c + b) == ResolveFrom(rt, Null, map[] + c + b + map[]);
    assert map[] + c + b + map[] == b;
  }
}

=== FILE: objc.dfy ===
/**
 * The dispatch layer and object handles of tinygrad/runtime/support/objc.py:
 * argument coercion (`convert_arg`), the dynamic send (`objc_msgSend`),
 * thunk construction (`build_method`), call shaping (`ObjcMethod.__call__`)
 * and `ObjcObject`. The three `functools.lru_cache` tables and the stream
 * of messages sent to the foreign runtime live in one Registry object.
 */
module Objc {
  import opened Wrappers
  import opened TypeEncoding
  import opened Introspection

  type byte = x: int | 0 <= x < 256

  /** The exceptions the bridge raises. */
  datatype Error =
    | DecodeFailed(cause: DecodeError)    // raised by objc_type_to_ctype
    | IntrospectionFailed(fault: Fault)   // the assertion in dump_objc_methods
    | NullPointer                         // "Can't create ObjcObject with null ptr"
    | ClassNotFound(name: string)         // "Class {name} not found"
    | AttributeNotFound(name: string)     // AttributeError "Method {name} not found on ..."
    | UseAfterFree                        // the assertion in convert_arg
    | NotAPointer                         // c_void_p(res) refuses a result that is no integer

  /**
   * ObjcObject: a non-null handle, the method table resolved for its class,
   * and the two lifetime flags.
   */
  class ObjcObject {
    const value: Handle
    const methodsInfo: MethodMap
    const manualRelease: bool
    var released: bool

    /** The field assignments of `__init__`, once its assertion has passed. */
    constructor (value: Handle, methodsInfo: MethodMap, manualRelease: bool)
      requires value != Null
      ensures this.value == value && this.methodsInfo == methodsInfo
      ensures this.manualRelease == manualRelease && !released
    {
      this.value := value;
      this.methodsInfo := methodsInfo;
      this.manualRelease := manualRelease;
      released := false;
    }
  }

  /** The Python values that flow through a call. */
  datatype Value =
    | Nothing                     // None
    | Int(i: int)                 // an int (or a bool)
    | Float(x: real)              // a float
    | Str(s: string)              // a str
    | Bytes(b: seq<byte>)         // a bytes object
    | List(items: seq<Value>)     // a list
    | Tuple(items: seq<Value>)    // a tuple
    | Object(o: ObjcObject)       // an ObjcObject
    | NSStringOf(s: string)       // what NSString.stringWithUTF8String_(s) returns
    | VoidPArray(items: seq<Value>) // (ctypes.c_void_p * n)(*items)
    | ErrorCellRef                // ctypes.byref(err), the out-error cell

  /** Python truthiness of a value. */
  predicate Truthy(v: Value) {
    match v
    case Nothing => false
    case Int(i) => i != 0
    case Float(x) => x != 0.0
    case Str(s) => s != []
    case Bytes(b) => b != []
    case List(items) => items != []
    case Tuple(items) => items != []
    case VoidPArray(items) => items != []
    case _ => true   // an object handle (never null), an NSString, the error cell
  }

  // ---------------------------------------------------------------------
  // str.encode()

  /** The UTF-8 bytes of one character. */
  function Utf8Char(c: char): (b: seq<byte>)
    ensures 1 <= |b| <= 4
    ensures |b| == 1 <==> c as int < 0x80
  {
    var n := c as int;
    if n < 0x80 then [n]
    else if n < 0x800 then [0xC0 + n / 0x40, 0x80 + n % 0x40]
    else if n < 0x10000 then [0xE0 + n / 0x1000, 0x80 + n / 0x40 % 0x40, 0x80 + n % 0x40]
    else [0xF0 + n / 0x40000, 0x80 + n / 0x1000 % 0x40, 0x80 + n / 0x40 % 0x40, 0x80 + n % 0x40]
  }

  /** `s.encode()`: UTF-8, one to four bytes per character. */
  function Utf8(s: string): (b: seq<byte>)
    ensures |s| <= |b| <= 4 * |s|
  {
    if s == [] then [] else Utf8Char(s[0]) + Utf8(s[1..])
  }

  /** An ASCII string encodes to its own code points, one byte each. */
  lemma {:induction false} Utf8Ascii(s: string)
    requires forall i :: 0 <= i < |s| ==> s[i] as int < 0x80
    ensures |Utf8(s)| == |s|
    ensures forall i :: 0 <= i < |s| ==> Utf8(s)[i] == s[i] as int
  {
    if s != [] {
      Utf8Ascii(s[1..]);
      assert Utf8(s) == [s[0] as int] + Utf8(s[1..]);
    }
  }

  // ---------------------------------------------------------------------
  // convert_arg and the argument list of objc_msgSend

  /** The object an argument refers to, if it is an ObjcObject. */
  function ArgObjects(arg: Value): set<ObjcObject> {
    if arg.Object? then {arg.o} else {}
  }

  /** Every ObjcObject passed directly in `args`. */
  function ObjectsIn(args: seq<Value>): set<ObjcObject> {
    set v | v in args && v.Object? :: v.o
  }

  /** The argument is an ObjcObject that has been released. */
  predicate IsReleased(arg: Value)
    reads ArgObjects(arg)
  {
    arg.Object? && arg.o.released
  }

  /** The argument is one convert_arg rewrites for a slot of type `t`. */
  predicate IsCoerced(arg: Value, t: CType) {
    || (arg.Str? && (t == Prim(CharP) || t == Prim(VoidP)))
    || arg.List?
    || (arg.Tuple? && t == Prim(VoidP))
  }

  /**
   * convert_arg. Because `or` binds looser than `and`, a list is packed for
   * every slot type and a tuple only for a c_void_p slot.
   */
  function ConvertArg(arg: Value, t: CType): (r: Result<Value, Error>)
    reads ArgObjects(arg)
    ensures r.Err? <==> IsReleased(arg)
    ensures r.Err? ==> r.error == UseAfterFree
    ensures r.Ok? && arg.Str? && t == Prim(CharP) ==> r.value == Bytes(Utf8(arg.s))
    ensures r.Ok? && arg.Str? && t == Prim(VoidP) ==> r.value == NSStringOf(arg.s)
    ensures r.Ok? && (arg.List? || (arg.Tuple? && t == Prim(VoidP))) ==>
              r.value.VoidPArray? && r.value.items == arg.items
    ensures r.Ok? && !IsCoerced(arg, t) ==> r.value == arg
  {
    if IsReleased(arg) then Err(UseAfterFree)
    else if arg.Str? && t == Prim(CharP) then Ok(Bytes(Utf8(arg.s)))
    else if arg.Str? && t == Prim(VoidP) then Ok(NSStringOf(arg.s))
    else if arg.List? || (arg.Tuple? && t == Prim(VoidP)) then Ok(VoidPArray(arg.items))
    else Ok(arg)
  }

  /** Converting an argument that was already converted for the same slot changes nothing. */
  lemma ConvertArgIdempotent(arg: Value, t: CType)
    requires ConvertArg(arg, t).Ok?
    ensures ConvertArg(ConvertArg(arg, t).value, t) == ConvertArg(arg, t)
  {
  }

  /** What reaches ctypes is never a str in a string or pointer slot, nor a list. */
  lemma ConvertArgResult(arg: Value, t: CType)
    requires ConvertArg(arg, t).Ok?
    ensures !IsCoerced(ConvertArg(arg, t).value, t)
  {
  }

  function Min(a: int, b: int): int {
    if a <= b then a else b
  }

  /**
   * `[convert_arg(a, t) for a, t in zip(args, argtypes)] if argtypes else []`:
   * `zip` stops at the shorter list, and the first released object raises.
   */
  function EncodeArgs(args: seq<Value>, ts: seq<CType>): (r: Result<seq<Value>, Error>)
    reads ObjectsIn(args)
    ensures r.Ok? ==> |r.value| == Min(|args|, |ts|)
    ensures r.Ok? ==> forall i :: 0 <= i < |r.value| ==> ConvertArg(args[i], ts[i]) == Ok(r.value[i])
    ensures r.Err? <==> exists i :: 0 <= i < Min(|args|, |ts|) && IsReleased(args[i])
    ensures r.Err? ==> r.error == UseAfterFree
  {
    if args == [] || ts == [] then Ok([])
    else
      match ConvertArg(args[0], ts[0])
      case Err(e) => Err(e)
      case Ok(head) =>
        match EncodeArgs(args[1..], ts[1..])
        case Err(e) =>
          assert forall i :: 1 <= i < |args| ==> args[i] == args[1..][i - 1];
          Err(e)
        case Ok(tail) => Ok([head] + tail)
  }

  /** The receiver and selector slots that precede every send's own arguments. */
  const ImplicitArgtypes: seq<CType> := [Prim(VoidP), Prim(VoidP)]

  /** One dynamic send as issued to `libobjc.objc_msgSend`, with the prototype installed for it. */
  datatype SendRequest = SendRequest(
    receiver: Handle, selector: Handle, restype: CType, argtypes: seq<CType>, args: seq<Value>)

  /** What the send returned, and what the callee left in the out-error cell (Null if nothing). */
  datatype SendReply = SendReply(result: Value, errCell: Handle)

  /** objc_msgSend's argtypes: the two implicit slots, then the decoded argument types. */
  function SendArgtypes(argtypes: seq<CType>): seq<CType> {
    ImplicitArgtypes + argtypes
  }

  // ---------------------------------------------------------------------
  // Name translation and build_method

  /** `name.replace("_", ":")`: the selector a Python attribute name denotes. */
  function SelectorName(name: string): (sel: string)
    ensures |sel| == |name|
    ensures forall i :: 0 <= i < |name| ==> sel[i] == if name[i] == '_' then ':' else name[i]
  {
    if name == [] then [] else [if name[0] == '_' then ':' else name[0]] + SelectorName(name[1..])
  }

  /**
   * A selector never contains `_`, and names without `:` (every Python
   * identifier) translate to distinct selectors.
   */
  lemma SelectorNameInjective(a: string, b: string)
    requires ':' !in a && ':' !in b
    requires SelectorName(a) == SelectorName(b)
    ensures a == b
    ensures '_' !in SelectorName(a)
  {
    assert forall i :: 0 <= i < |a| ==> a[i] == b[i] by {
      forall i | 0 <= i < |a|
        ensures a[i] == b[i]
      {
        assert a[i] != ':' && b[i] != ':';
        assert SelectorName(a)[i] == SelectorName(b)[i];
      }
    }
  }

  /** Translation works character by character, so it distributes over concatenation. */
  lemma SelectorNameAppend(a: string, b: string)
    ensures SelectorName(a + b) == SelectorName(a) + SelectorName(b)
  {
    assert forall i :: 0 <= i < |a + b| ==> SelectorName(a + b)[i] == (SelectorName(a) + SelectorName(b))[i];
  }

  /** A name without `_` is its own selector. */
  lemma SelectorNameKeeps(s: string)
    requires '_' !in s
    ensures SelectorName(s) == s
  {
  }

  /** The two-keyword form `a_b_` becomes `a:b:`. */
  lemma SelectorNameTwoKeywords(a: string, b: string)
    requires '_' !in a && '_' !in b
    ensures SelectorName(a + "_" + b + "_") == a + ":" + b + ":"
  {
    SelectorNameKeeps(a);
    SelectorNameKeeps(b);
    SelectorNameAppend(a, "_");
    SelectorNameAppend(a + "_", b);
    SelectorNameAppend(a + "_" + b, "_");
  }

  /** `doThing_withValue_` becomes `doThing:withValue:`. */
  lemma SelectorNameExample()
    ensures SelectorName("doThing_withValue_") == "doThing:withValue:"
  {
    var a, b := "doThing", "withValue";
    assert '_' !in a by {
      assert forall i :: 0 <= i < |a| ==> a[i] != '_';
    }
    assert '_' !in b by {
      assert forall i :: 0 <= i < |b| ==> b[i] != '_';
    }
    assert a + "_" + b + "_" == "doThing_withValue_";
    assert a + ":" + b + ":" == "doThing:withValue:";
    SelectorNameTwoKeywords(a, b);
  }

  /** `argtypes[2:]`: the receiver and selector slots are skipped. */
  function ArgumentSlots(argtypes: seq<string>): seq<string> {
    if |argtypes| >= 2 then argtypes[2..] else []
  }

  /** An ObjcMethod: the thunk bound to a receiver, with its two flags. */
  datatype ObjcMethod = ObjcMethod(
    receiver: Handle, selName: string, restype: CType, argtypes: seq<CType>, outErr: bool, retPtr: bool)

  /**
   * The closure `f(p)` that build_method returns: it decodes the return
   * encoding, then `argtypes[2:]` in order, each time it is applied.
   */
  function BindMethod(name: string, selName: string, restype: string, argtypes: seq<string>, p: Handle)
    : (r: Result<ObjcMethod, Error>)
    ensures r.Ok? <==> Decode(restype).Ok? && DecodeAll(ArgumentSlots(argtypes)).Ok?
    ensures Decode(restype).Err? ==> r == Err(DecodeFailed(Decode(restype).error))
    ensures Decode(restype).Ok? && DecodeAll(ArgumentSlots(argtypes)).Err? ==>
              r == Err(DecodeFailed(DecodeAll(ArgumentSlots(argtypes)).error))
    ensures r.Ok? ==> r.value.receiver == p && r.value.selName == selName
    ensures r.Ok? ==> Decode(restype) == Ok(r.value.restype)
    ensures r.Ok? ==> |r.value.argtypes| == |ArgumentSlots(argtypes)|
    ensures r.Ok? ==> forall i :: 0 <= i < |r.value.argtypes| ==> Decode(argtypes[i + 2]) == Ok(r.value.argtypes[i])
    ensures r.Ok? ==> (r.value.outErr <==> IsSuffix("error_", name))
    ensures r.Ok? ==> (r.value.retPtr <==> restype == "@")
  {
    match Decode(restype)
    case Err(e) => Err(DecodeFailed(e))
    case Ok(rt) =>
      match DecodeAll(ArgumentSlots(argtypes))
      case Err(e) => Err(DecodeFailed(e))
      case Ok(ats) => Ok(ObjcMethod(p, selName, rt, ats, IsSuffix("error_", name), restype == "@"))
  }

  /**
   * The prototype objc_msgSend installs for a bound method has one slot per
   * argument encoding the runtime reported: two `c_void_p` slots for the
   * receiver and the selector, then each later encoding, decoded.
   */
  lemma PrototypeMatchesEncodings(name: string, selName: string, restype: string, argtypes: seq<string>, p: Handle)
    requires BindMethod(name, selName, restype, argtypes, p).Ok?
    ensures var proto := SendArgtypes(BindMethod(name, selName, restype, argtypes, p).value.argtypes);
            && |proto| >= 2 && proto[0] == Prim(VoidP) && proto[1] == Prim(VoidP)
            && |proto| == (if |argtypes| >= 2 then |argtypes| else 2)
            && forall i :: 2 <= i < |argtypes| ==> Decode(argtypes[i]) == Ok(proto[i])
  {
    var m := BindMethod(name, selName, restype, argtypes, p).value;
    var proto := SendArgtypes(m.argtypes);
    assert |proto| == 2 + |ArgumentSlots(argtypes)|;
    forall i | 2 <= i < |argtypes|
      ensures Decode(argtypes[i]) == Ok(proto[i])
    {
      assert proto[i] == m.argtypes[i - 2];
    }
  }

  /** The lru_cache key of build_method. */
  datatype BuildKey = BuildKey(name: string, selName: string, restype: string, argtypes: seq<string>)

  /** The closure build_method returns; its identity is what the cache preserves. */
  class MethodBuilder {
    const key: BuildKey

    constructor (key: BuildKey)
      ensures this.key == key
    {
      this.key := key;
    }

    /** f(p). */
    function Apply(p: Handle): Result<ObjcMethod, Error> {
      BindMethod(key.name, key.selName, key.restype, key.argtypes, p)
    }
  }

  /**
   * The lookup half of `__getattr__`: translate the name, fail with
   * AttributeError when the selector is not in the table, otherwise bind.
   */
  function LookupAttr(p: Handle, methodsInfo: MethodMap, name: string): (r: Result<ObjcMethod, Error>)
    ensures r == Err(AttributeNotFound(name)) <==> SelectorName(name) !in methodsInfo
    ensures SelectorName(name) in methodsInfo ==>
              var sig := methodsInfo[SelectorName(name)];
              r == BindMethod(name, SelectorName(name), sig.returnType, sig.argTypes, p)
    ensures r.Ok? ==> r.value.selName == SelectorName(name) && r.value.receiver == p
    ensures r.Ok? ==> var sig := methodsInfo[SelectorName(name)];
                      Decode(sig.returnType) == Ok(r.value.restype)
                      && (r.value.retPtr <==> sig.returnType == "@")
                      && (r.value.outErr <==> IsSuffix("error_", name))
  {
    var sel := SelectorName(name);
    if sel !in methodsInfo then Err(AttributeNotFound(name))
    else BindMethod(name, sel, methodsInfo[sel].returnType, methodsInfo[sel].argTypes, p)
  }

  /** `release` is its own selector, and it does not end in `error_`. */
  lemma ReleaseName()
    ensures SelectorName("release") == "release"
    ensures !IsSuffix("error_", "release")
  {
    assert "release"[1..] != "error_";
  }

  /** The build_method cache key `__getattr__` uses for a name whose selector is in the table. */
  function AttrKey(methodsInfo: MethodMap, name: string): BuildKey
    requires SelectorName(name) in methodsInfo
  {
    var sel := SelectorName(name);
    BuildKey(name, sel, methodsInfo[sel].returnType, methodsInfo[sel].argTypes)
  }

  // ---------------------------------------------------------------------
  // ObjcMethod.__call__

  /**
   * The arguments `f` receives: with the out-error flag, every caller
   * argument but the last, then the error cell.
   */
  function CallArgs(outErr: bool, args: seq<Value>): (r: seq<Value>)
    ensures !outErr ==> r == args
    ensures outErr ==> |r| == (if args == [] then 1 else |args|) && r[|r| - 1] == ErrorCellRef
    ensures outErr ==> forall i :: 0 <= i < |r| - 1 ==> r[i] == args[i]
  {
    if outErr then (if args == [] then [] else args[..|args| - 1]) + [ErrorCellRef] else args
  }

  /**
   * `zip` keeps the error cell's slot only when the method has an argument
   * type for it; otherwise the callee never sees the cell and it stays null.
   */
  predicate ErrorCellPassed(args: seq<Value>, argtypes: seq<CType>) {
    |CallArgs(true, args)| <= |argtypes|
  }

  /** What `err.value` holds after the send: the callee's report if the cell reached it, else null. */
  function ErrorCellAfter(outErr: bool, args: seq<Value>, argtypes: seq<CType>, reply: SendReply): Handle {
    if outErr && ErrorCellPassed(args, argtypes) then reply.errCell else Null
  }

  /**
   * The error cell is among the encoded arguments exactly when it is passed:
   * then it is the last one, unconverted.
   */
  lemma ErrorCellReachesSend(args: seq<Value>, argtypes: seq<CType>)
    requires EncodeArgs(CallArgs(true, args), argtypes).Ok?
    ensures var enc := EncodeArgs(CallArgs(true, args), argtypes).value;
            ErrorCellPassed(args, argtypes) <==>
              |enc| == |CallArgs(true, args)| && enc[|enc| - 1] == ErrorCellRef
  {
    var cargs := CallArgs(true, args);
    var enc := EncodeArgs(cargs, argtypes).value;
    if ErrorCellPassed(args, argtypes) {
      assert ConvertArg(cargs[|cargs| - 1], argtypes[|cargs| - 1]) == Ok(enc[|enc| - 1]);
    }
  }

  /** The shape of `__call__`'s result, with objects still to be built named by their handles. */
  datatype Outcome =
    | Returned(v: Value)                                 // the send's value as it came
    | Wrapped(v: Value)                                  // ObjcObject(v)
    | WithError(first: Outcome, error: Option<Handle>)   // (first, None or ObjcObject(error))

  /** The outcome without its error component. */
  function Primary(o: Outcome): Outcome {
    if o.WithError? then o.first else o
  }

  /** The result shaping of `__call__`, given the send's value and the error cell's content. */
  function Shape(outErr: bool, retPtr: bool, res: Value, errCell: Handle): (o: Outcome)
    ensures !Truthy(res) ==> o == Returned(res)
    ensures Truthy(res) ==> (o.WithError? <==> outErr)
    ensures Truthy(res) ==> Primary(o) == if retPtr then Wrapped(res) else Returned(res)
    ensures o.WithError? ==> (o.error.None? <==> errCell == Null)
    ensures o.WithError? && o.error.Some? ==> o.error.value == errCell
  {
    var first := if Truthy(res) && retPtr then Wrapped(res) else Returned(res);
    if Truthy(res) && outErr then WithError(first, if errCell == Null then None else Some(errCell))
    else first
  }

  /** `o` is a fresh-looking wrapper of `h`, built by `ObjcObject(h)` with its resolved table. */
  ghost predicate WrapsHandle(o: ObjcObject, h: Handle, rt: Runtime)
    requires WellFormed(rt)
  {
    o.value == h && !o.manualRelease && ResolveMethods(rt, rt.isa(h)) == Ok(o.methodsInfo)
  }

  /** Every ObjcObject the outcome asks for can be built. */
  ghost predicate Realisable(o: Outcome, rt: Runtime)
    requires WellFormed(rt)
  {
    match o
    case Returned(_) => true
    case Wrapped(v) => v.Int? && ResolveMethods(rt, rt.isa(v.i)).Ok?
    case WithError(first, error) =>
      Realisable(first, rt) && (error.Some? ==> ResolveMethods(rt, rt.isa(error.value)).Ok?)
  }

  /**
   * The exception building the outcome's objects raises, in the order
   * `__call__` builds them: the wrapped result first (objc.py:90), then the
   * error object (objc.py:91). None when every object can be built.
   */
  ghost function BuildFailure(o: Outcome, rt: Runtime): (f: Option<Error>)
    requires WellFormed(rt)
    ensures f.None? <==> Realisable(o, rt)
    ensures f.Some? ==> f.value == NotAPointer || f.value.IntrospectionFailed?
  {
    match o
    case Returned(_) => None
    case Wrapped(v) =>
      if !v.Int? then Some(NotAPointer)
      else if ResolveMethods(rt, rt.isa(v.i)).Err? then Some(IntrospectionFailed(ResolveMethods(rt, rt.isa(v.i)).error))
      else None
    case WithError(first, error) =>
      if BuildFailure(first, rt).Some? then BuildFailure(first, rt)
      else if error.Some? && ResolveMethods(rt, rt.isa(error.value)).Err? then
        Some(IntrospectionFailed(ResolveMethods(rt, rt.isa(error.value)).error))
      else None
  }

  /** `v` is the Python value the outcome describes. */
  ghost predicate Realises(v: Value, o: Outcome, rt: Runtime)
    requires WellFormed(rt)
  {
    match o
    case Returned(x) => v == x
    case Wrapped(x) => x.Int? && v.Object? && WrapsHandle(v.o, x.i, rt)
    case WithError(first, error) =>
      && v.Tuple? && |v.items| == 2
      && Realises(v.items[0], first, rt)
      && match error
         case None => v.items[1] == Nothing
         case Some(h) => v.items[1].Object? && WrapsHandle(v.items[1].o, h, rt)
  }

  /** The classes whose method tables building the outcome's objects resolves. */
  ghost function OutcomeClasses(o: Outcome, rt: Runtime): set<Handle> {
    match o
    case Returned(_) => {}
    case Wrapped(v) => if v.Int? then {rt.isa(v.i)} else {}
    case WithError(first, error) =>
      OutcomeClasses(first, rt) + if error.Some? then {rt.isa(error.value)} else {}
  }

  /** `after` is `before` with one argument-less message to `receiver` appended. */
  predicate OneMessageAppended(before: seq<SendRequest>, after: seq<SendRequest>, receiver: Handle, selector: Handle) {
    && |after| == |before| + 1 && after[..|before|] == before
    && after[|before|].receiver == receiver && after[|before|].selector == selector
    && after[|before|].args == []
  }

  // ---------------------------------------------------------------------
  // The process-wide state

  /**
   * The three lru_caches (sel_registerName, get_methods_rec, build_method),
   * the runtime they consult, and the messages sent so far.
   */
  class Registry {
    const rt: Runtime
    var selectors: map<string, Handle>
    var methodTables: map<Handle, MethodMap>
    var builders: map<BuildKey, MethodBuilder>
    var sent: seq<SendRequest>

    /** Every cached entry is what the uncached call returns. */
    ghost predicate Valid()
      reads this
    {
      && WellFormed(rt)
      && (forall s :: s in selectors ==> selectors[s] == rt.selectorFor(s))
      && (forall c :: c in methodTables ==> ResolveMethods(rt, c) == Ok(methodTables[c]))
      && (forall k :: k in builders ==> builders[k].key == k)
    }

    constructor (rt: Runtime)
      requires WellFormed(rt)
      ensures Valid() && this.rt == rt
      ensures selectors == map[] && methodTables == map[] && builders == map[] && sent == []
    {
      this.rt := rt;
      selectors, methodTables, builders, sent := map[], map[], map[], [];
    }

    /** sel_registerName: a hit returns the cached token, a miss asks the runtime and caches it. */
    method SelRegisterName(sel: string) returns (token: Handle)
      requires Valid()
      modifies this`selectors
      ensures Valid()
      ensures token == rt.selectorFor(sel)
      ensures sel in old(selectors) ==> selectors == old(selectors) && token == old(selectors)[sel]
      ensures sel !in old(selectors) ==> selectors == old(selectors)[sel := token]
    {
      if sel in selectors {
        return selectors[sel];
      }
      token := rt.selectorFor(sel);
      selectors := selectors[sel := token];
    }

    /**
     * get_methods_rec with its cache: a hit returns the earlier table; a miss
     * walks the chain and caches only a table that was built (an exception is
     * not cached).
     */
    method GetMethodsRec(c: Handle) returns (r: Result<MethodMap, Fault>)
      requires Valid()
      modifies this`methodTables
      ensures Valid()
      ensures r == ResolveMethods(rt, c)
      ensures c in old(methodTables) ==> methodTables == old(methodTables) && r == Ok(old(methodTables)[c])
      ensures c !in old(methodTables) && r.Ok? ==> methodTables == old(methodTables)[c := r.value]
      ensures r.Err? ==> methodTables == old(methodTables)
    {
      if c in methodTables {
        return Ok(methodTables[c]);
      }
      r := WalkSuperclasses(rt, c);
      if r.Ok? {
        methodTables := methodTables[c := r.value];
      }
    }

    /** build_method with its cache: the same key always yields the same closure object. */
    method BuildMethod(key: BuildKey) returns (b: MethodBuilder)
      requires Valid()
      modifies this`builders
      ensures Valid()
      ensures b.key == key
      ensures key in old(builders) ==> builders == old(builders) && b == old(builders)[key]
      ensures key !in old(builders) ==> fresh(b) && builders == old(builders)[key := b]
    {
      if key in builders {
        return builders[key];
      }
      b := new MethodBuilder(key);
      builders := builders[key := b];
    }

    /**
     * ObjcObject(p, manual_release): refuse null, then resolve the table of
     * p's class. Only a miss that resolves adds a method table.
     */
    method CreateObject(p: Handle, manualRelease: bool) returns (r: Result<ObjcObject, Error>)
      requires Valid()
      modifies this`methodTables
      ensures Valid()
      ensures p == Null ==> r == Err(NullPointer) && methodTables == old(methodTables)
      ensures p != Null ==> (r.Ok? <==> ResolveMethods(rt, rt.isa(p)).Ok?)
      ensures p != Null && r.Err? ==> r == Err(IntrospectionFailed(ResolveMethods(rt, rt.isa(p)).error))
      ensures r.Ok? ==> fresh(r.value) && !r.value.released && r.value.value == p
      ensures r.Ok? ==> r.value.manualRelease == manualRelease
      ensures r.Ok? ==> ResolveMethods(rt, rt.isa(p)) == Ok(r.value.methodsInfo)
      ensures r.Err? || rt.isa(p) in old(methodTables) ==> methodTables == old(methodTables)
      ensures r.Ok? && rt.isa(p) !in old(methodTables) ==>
                methodTables == old(methodTables)[rt.isa(p) := r.value.methodsInfo]
    {
      if p == Null {
        return Err(NullPointer);
      }
      var table := GetMethodsRec(rt.isa(p));
      if table.Err? {
        return Err(IntrospectionFailed(table.error));
      }
      var o := new ObjcObject(p, table.value, manualRelease);
      return Ok(o);
    }

    /** ObjcObject.from_classname: an unknown class fails; a known one is wrapped with manual release. */
    method FromClassname(name: string) returns (r: Result<ObjcObject, Error>)
      requires Valid()
      modifies this`methodTables
      ensures Valid()
      ensures rt.classNamed(name) == Null ==> r == Err(ClassNotFound(name)) && methodTables == old(methodTables)
      ensures rt.classNamed(name) != Null ==> (r.Ok? <==> ResolveMethods(rt, rt.isa(rt.classNamed(name))).Ok?)
      ensures rt.classNamed(name) != Null && r.Err? ==>
                r == Err(IntrospectionFailed(ResolveMethods(rt, rt.isa(rt.classNamed(name))).error))
      ensures r.Ok? ==> fresh(r.value) && !r.value.released && r.value.manualRelease
      ensures r.Ok? ==> r.value.value == rt.classNamed(name)
      ensures r.Ok? ==> ResolveMethods(rt, rt.isa(r.value.value)) == Ok(r.value.methodsInfo)
      ensures r.Err? || rt.isa(rt.classNamed(name)) in old(methodTables) ==> methodTables == old(methodTables)
      ensures r.Ok? && rt.isa(rt.classNamed(name)) !in old(methodTables) ==>
                methodTables == old(methodTables)[rt.isa(rt.classNamed(name)) := r.value.methodsInfo]
    {
      var p := rt.classNamed(name);
      if p == Null {
        return Err(ClassNotFound(name));
      }
      r := CreateObject(p, true);
    }

    /**
     * `obj.name`: translate, look up, then build (or reuse) the closure and
     * apply it to obj. A found selector caches its closure even when applying
     * it fails to decode.
     */
    method GetAttr(obj: ObjcObject, name: string) returns (r: Result<ObjcMethod, Error>)
      requires Valid()
      modifies this`builders
      ensures Valid()
      ensures r == LookupAttr(obj.value, obj.methodsInfo, name)
      ensures SelectorName(name) !in obj.methodsInfo ==> builders == old(builders)
      ensures SelectorName(name) in obj.methodsInfo ==>
                builders.Keys == old(builders).Keys + {AttrKey(obj.methodsInfo, name)}
      ensures forall k :: k in old(builders) ==> builders[k] == old(builders)[k]
    {
      var sel := SelectorName(name);
      if sel !in obj.methodsInfo {
        return Err(AttributeNotFound(name));
      }
      var sig := obj.methodsInfo[sel];
      var b := BuildMethod(BuildKey(name, sel, sig.returnType, sig.argTypes));
      r := b.Apply(obj.value);
    }

    /**
     * objc_msgSend: convert the arguments, register the selector, install the
     * prototype and send. A released argument stops it before the selector is
     * registered and before this send is issued.
     */
    method MsgSend(obj: Handle, sel: string, args: seq<Value>, restype: CType, argtypes: seq<CType>,
                   send: SendRequest -> SendReply)
      returns (r: Result<SendReply, Error>)
      requires Valid()
      modifies this`selectors, this`sent
      ensures Valid()
      ensures old(EncodeArgs(args, argtypes)).Err? ==>
                r == Err(UseAfterFree) && sent == old(sent) && selectors == old(selectors)
      ensures old(EncodeArgs(args, argtypes)).Ok? ==>
                var req := SendRequest(obj, rt.selectorFor(sel), restype, SendArgtypes(argtypes),
                                       old(EncodeArgs(args, argtypes)).value);
                && sent == old(sent) + [req] && r == Ok(send(req))
                && selectors == old(selectors)[sel := rt.selectorFor(sel)]
    {
      var encoded := EncodeArgs(args, argtypes);
      if encoded.Err? {
        return Err(encoded.error);
      }
      var token := SelRegisterName(sel);
      var req := SendRequest(obj, token, restype, SendArgtypes(argtypes), encoded.value);
      sent := sent + [req];
      r := Ok(send(req));
    }

    /** `ObjcObject(v)` for a send's truthy result. */
    method Wrap(v: Value) returns (r: Result<ObjcObject, Error>)
      requires Valid() && Truthy(v)
      modifies this`methodTables
      ensures Valid()
      ensures r.Ok? <==> v.Int? && ResolveMethods(rt, rt.isa(v.i)).Ok?
      ensures !v.Int? ==> r == Err(NotAPointer)
      ensures v.Int? && r.Err? ==> r == Err(IntrospectionFailed(ResolveMethods(rt, rt.isa(v.i)).error))
      ensures r.Ok? ==> fresh(r.value) && !r.value.released && WrapsHandle(r.value, v.i, rt)
      ensures r.Err? || rt.isa(v.i) in old(methodTables) ==> methodTables == old(methodTables)
      ensures r.Ok? && rt.isa(v.i) !in old(methodTables) ==>
                methodTables == old(methodTables)[rt.isa(v.i) := r.value.methodsInfo]
    {
      if !v.Int? {
        return Err(NotAPointer);
      }
      r := CreateObject(v.i, false);
    }

    /**
     * ObjcMethod.__call__: send, then wrap a truthy result when the return
     * encoding is `@`, and pair a truthy result with the error cell's object
     * when the name ends in `error_`. The closures cached by build_method are
     * untouched; the method-table cache gains at most the classes of the
     * objects built.
     */
    method Call(m: ObjcMethod, args: seq<Value>, send: SendRequest -> SendReply) returns (r: Result<Value, Error>)
      requires Valid()
      modifies this`selectors, this`sent, this`methodTables
      ensures Valid()
      ensures builders == old(builders)
      ensures r == Err(UseAfterFree) <==> old(EncodeArgs(CallArgs(m.outErr, args), m.argtypes)).Err?
      ensures old(EncodeArgs(CallArgs(m.outErr, args), m.argtypes)).Err? ==>
                && r == Err(UseAfterFree) && sent == old(sent)
                && selectors == old(selectors) && methodTables == old(methodTables)
      ensures old(EncodeArgs(CallArgs(m.outErr, args), m.argtypes)).Ok? ==>
                var req := SendRequest(m.receiver, rt.selectorFor(m.selName), m.restype, SendArgtypes(m.argtypes),
                                       old(EncodeArgs(CallArgs(m.outErr, args), m.argtypes)).value);
                var o := Shape(m.outErr, m.retPtr, send(req).result,
                               ErrorCellAfter(m.outErr, args, m.argtypes, send(req)));
                && sent == old(sent) + [req]
                && selectors == old(selectors)[m.selName := rt.selectorFor(m.selName)]
                && (r.Ok? <==> Realisable(o, rt))
                && (r.Err? ==> Some(r.error) == BuildFailure(o, rt))
                && (r.Ok? ==> Realises(r.value, o, rt))
                && (r.Ok? && o.Wrapped? ==> fresh(r.value.o) && !r.value.o.released)
                && (r.Ok? && o.WithError? && o.first.Wrapped? ==>
                      r.value.items[0].Object? && fresh(r.value.items[0].o) && !r.value.items[0].o.released)
                && (r.Ok? && o.WithError? && o.error.Some? ==>
                      fresh(r.value.items[1].o) && !r.value.items[1].o.released)
                && old(methodTables).Keys <= methodTables.Keys <= old(methodTables).Keys + OutcomeClasses(o, rt)
                && (r.Ok? ==> OutcomeClasses(o, rt) <= methodTables.Keys)
    {
      var reply :- MsgSend(m.receiver, m.selName, CallArgs(m.outErr, args), m.restype, m.argtypes, send);
      r := ShapeReply(m.outErr, m.retPtr, reply.result, ErrorCellAfter(m.outErr, args, m.argtypes, reply));
    }

    /**
     * Lines 90-91 of `__call__`: wrap a truthy result when the return encoding
     * is `@`, then pair a truthy result with the error cell's object (or None)
     * when the name ends in `error_`. Each object built is new and live.
     */
    method ShapeReply(outErr: bool, retPtr: bool, result: Value, errCell: Handle) returns (r: Result<Value, Error>)
      requires Valid()
      modifies this`methodTables
      ensures Valid()
      ensures var o := Shape(outErr, retPtr, result, errCell);
              && (r.Ok? <==> Realisable(o, rt))
              && (r.Err? ==> Some(r.error) == BuildFailure(o, rt))
              && (r.Ok? ==> Realises(r.value, o, rt))
              && (r.Ok? && o.Wrapped? ==> fresh(r.value.o) && !r.value.o.released)
              && (r.Ok? && o.WithError? && o.first.Wrapped? ==>
                    r.value.items[0].Object? && fresh(r.value.items[0].o) && !r.value.items[0].o.released)
              && (r.Ok? && o.WithError? && o.error.Some? ==>
                    fresh(r.value.items[1].o) && !r.value.items[1].o.released)
              && old(methodTables).Keys <= methodTables.Keys <= old(methodTables).Keys + OutcomeClasses(o, rt)
              && (r.Ok? ==> OutcomeClasses(o, rt) <= methodTables.Keys)
    {
      ghost var o := Shape(outErr, retPtr, result, errCell);
      var res := result;
      if Truthy(res) && retPtr {
        var w := Wrap(res);
        if w.Err? {
          return Err(w.error);
        }
        res := Object(w.value);
      }
      assert Realises(res, Primary(o), rt);
      assert old(methodTables).Keys <= methodTables.Keys <= old(methodTables).Keys + OutcomeClasses(Primary(o), rt);
      assert OutcomeClasses(Primary(o), rt) <= methodTables.Keys;
      if Truthy(result) && outErr {
        var e := Nothing;
        if errCell != Null {
          var eo := CreateObject(errCell, false);
          if eo.Err? {
            return Err(eo.error);
          }
          e := Object(eo.value);
        }
        res := Tuple([res, e]);
      }
      r := Ok(res);
    }

    /**
     * `__del__`: an object with manual release is marked released FIRST and
     * then sent `release`. Returns the exception raised, if any.
     */
    method Dispose(obj: ObjcObject, send: SendRequest -> SendReply) returns (failure: Option<Error>)
      requires Valid()
      modifies this`selectors, this`sent, this`methodTables, this`builders, obj`released
      ensures Valid()
      ensures obj.released == (old(obj.released) || obj.manualRelease)
      ensures !obj.manualRelease ==>
                && failure == None && sent == old(sent) && selectors == old(selectors)
                && methodTables == old(methodTables) && builders == old(builders)
      ensures obj.manualRelease && SelectorName("release") !in obj.methodsInfo ==> builders == old(builders)
      ensures obj.manualRelease && SelectorName("release") in obj.methodsInfo ==>
                builders.Keys == old(builders).Keys + {AttrKey(obj.methodsInfo, "release")}
      ensures forall k :: k in old(builders) ==> builders[k] == old(builders)[k]
      ensures sent == old(sent) || OneMessageAppended(old(sent), sent, obj.value, rt.selectorFor("release"))
      ensures obj.manualRelease && LookupAttr(obj.value, obj.methodsInfo, "release").Err? ==>
                && failure == Some(LookupAttr(obj.value, obj.methodsInfo, "release").error)
                && sent == old(sent) && selectors == old(selectors) && methodTables == old(methodTables)
      ensures obj.manualRelease && LookupAttr(obj.value, obj.methodsInfo, "release").Ok? ==>
                var m := LookupAttr(obj.value, obj.methodsInfo, "release").value;
                var req := SendRequest(obj.value, rt.selectorFor("release"), m.restype, SendArgtypes(m.argtypes), []);
                var o := Shape(false, m.retPtr, send(req).result, Null);
                && sent == old(sent) + [req]
                && selectors == old(selectors)["release" := rt.selectorFor("release")]
                && (failure.None? <==> Realisable(o, rt))
                && failure == BuildFailure(o, rt)
                && old(methodTables).Keys <= methodTables.Keys <= old(methodTables).Keys + OutcomeClasses(o, rt)
    {
      if !obj.manualRelease {
        return None;
      }
      obj.released := true;
      ReleaseName();
      failure := CallAttr(obj, "release", send);
    }

    /**
     * `obj.name()` as a statement, for a name not ending in `error_`: look the
     * method up through `__getattr__` (a missing one raises) and call it
     * without arguments. `__del__` uses it for `self.release()`.
     */
    method CallAttr(obj: ObjcObject, name: string, send: SendRequest -> SendReply) returns (failure: Option<Error>)
      requires Valid() && !IsSuffix("error_", name)
      modifies this`selectors, this`sent, this`methodTables, this`builders
      ensures Valid()
      ensures SelectorName(name) !in obj.methodsInfo ==> builders == old(builders)
      ensures SelectorName(name) in obj.methodsInfo ==>
                builders.Keys == old(builders).Keys + {AttrKey(obj.methodsInfo, name)}
      ensures forall k :: k in old(builders) ==> builders[k] == old(builders)[k]
      ensures sent == old(sent) || OneMessageAppended(old(sent), sent, obj.value, rt.selectorFor(SelectorName(name)))
      ensures LookupAttr(obj.value, obj.methodsInfo, name).Err? ==>
                && failure == Some(LookupAttr(obj.value, obj.methodsInfo, name).error)
                && sent == old(sent) && selectors == old(selectors) && methodTables == old(methodTables)
      ensures LookupAttr(obj.value, obj.methodsInfo, name).Ok? ==>
                var m := LookupAttr(obj.value, obj.methodsInfo, name).value;
                var req := SendRequest(obj.value, rt.selectorFor(SelectorName(name)), m.restype, SendArgtypes(m.argtypes), []);
                var o := Shape(false, m.retPtr, send(req).result, Null);
                && sent == old(sent) + [req]
                && selectors == old(selectors)[SelectorName(name) := rt.selectorFor(SelectorName(name))]
                && (failure.None? <==> Realisable(o, rt))
                && failure == BuildFailure(o, rt)
                && old(methodTables).Keys <= methodTables.Keys <= old(methodTables).Keys + OutcomeClasses(o, rt)
    {
      var m := GetAttr(obj, name);
      if m.Err? {
        return Some(m.error);
      }
      ghost var sent0 := sent;
      failure := CallWithoutArguments(m.value, send);
      assert OneMessageAppended(sent0, sent, obj.value, rt.selectorFor(SelectorName(name)));
    }

    /**
     * `m()` as a statement, for a method without the out-error flag: `Call`
     * with no arguments, keeping only the exception it raises, if any.
     */
    method CallWithoutArguments(m: ObjcMethod, send: SendRequest -> SendReply) returns (failure: Option<Error>)
      requires Valid() && !m.outErr
      modifies this`selectors, this`sent, this`methodTables
      ensures Valid()
      ensures var req := SendRequest(m.receiver, rt.selectorFor(m.selName), m.restype, SendArgtypes(m.argtypes), []);
              var o := Shape(false, m.retPtr, send(req).result, Null);
              && sent == old(sent) + [req]
              && selectors == old(selectors)[m.selName := rt.selectorFor(m.selName)]
              && (failure.None? <==> Realisable(o, rt))
              && failure == BuildFailure(o, rt)
              && old(methodTables).Keys <= methodTables.Keys <= old(methodTables).Keys + OutcomeClasses(o, rt)
    {
      assert CallArgs(m.outErr, []) == [];
      assert EncodeArgs([], m.argtypes) == Ok([]);
      var r := Call(m, [], send);
      failure := if r.Err? then Some(r.error) else None;
      ghost var req := SendRequest(m.receiver, rt.selectorFor(m.selName), m.restype, SendArgtypes(m.argtypes), []);
      assert ErrorCellAfter(false, [], m.argtypes, send(req)) == Null;
    }
  }

  // ---------------------------------------------------------------------
  // Two sequences of calls

  /** build_method's cache keeps its closure across a call: asking twice gives the same object. */
  method ClosureSurvivesCall(reg: Registry, key: BuildKey, m: ObjcMethod, args: seq<Value>,
                             send: SendRequest -> SendReply)
    returns (first: MethodBuilder, second: MethodBuilder)
    requires reg.Valid()
    modifies reg
    ensures reg.Valid()
    ensures first == second && first.key == key
  {
    first := reg.BuildMethod(key);
    var result := reg.Call(m, args, send);
    second := reg.BuildMethod(key);
  }

  /**
   * Passing a released object as a method's first argument fails the
   * use-after-free assertion before anything is sent or cached.
   */
  method ReleasedArgumentRefused(reg: Registry, obj: ObjcObject, m: ObjcMethod, send: SendRequest -> SendReply)
    returns (r: Result<Value, Error>)
    requires reg.Valid() && obj.released && |m.argtypes| >= 1 && !m.outErr
    modifies reg
    ensures reg.Valid()
    ensures r == Err(UseAfterFree)
    ensures reg.sent == old(reg.sent) && reg.selectors == old(reg.selectors)
    ensures reg.methodTables == old(reg.methodTables) && reg.builders == old(reg.builders)
  {
    assert CallArgs(m.outErr, [Object(obj)]) == [Object(obj)];
    assert IsReleased([Object(obj)][0]);
    assert EncodeArgs([Object(obj)], m.argtypes).Err?;
    r := reg.Call(m, [Object(obj)], send);
  }

  /**
   * Once `__del__` has run on a manual-release object, passing it to any
   * method with an argument slot fails the use-after-free assertion: the
   * only message sent is the `release` itself, and the log before it is kept.
   */
  method DisposedArgumentRefused(reg: Registry, obj: ObjcObject, m: ObjcMethod, send: SendRequest -> SendReply)
    returns (r: Result<Value, Error>)
    requires reg.Valid() && obj.manualRelease && |m.argtypes| >= 1 && !m.outErr
    modifies reg, obj
    ensures reg.Valid()
    ensures obj.released
    ensures r == Err(UseAfterFree)
    ensures reg.sent == old(reg.sent) || OneMessageAppended(old(reg.sent), reg.sent, obj.value, reg.rt.selectorFor("release"))
  {
    var failure := reg.Dispose(obj, send);
    r := ReleasedArgumentRefused(reg, obj, m, send);
  }
}

=== FILE: type_encoding.dfy ===
/**
 * The decoder for the Objective-C runtime's type-encoding strings: the
 * `SIMPLE_TYPES` table and `objc_type_to_ctype` of
 * tinygrad/runtime/support/objc.py. A decoded type is an abstract
 * descriptor standing for the ctypes type (or placeholder) the Python code
 * would hand to ctypes.
 */
module TypeEncoding {
  import opened Wrappers

  /** The ctypes simple types named by the table. */
  datatype Kind =
    | Char | Int | Short | Long | LongLong
    | UInt8 | UInt | UShort | ULong | ULongLong
    | Float | Double | Bool
    | CharP   // ctypes.c_char_p
    | VoidP   // ctypes.c_void_p

  /** What `objc_type_to_ctype` returns. */
  datatype CType =
    | Prim(kind: Kind)      // a ctypes simple type
    | Void                  // `None`, the table's entry for 'v'
    | ClassName             // the string 'Class', the table's entry for '#'
    | SelName               // the string 'SEL', the table's entry for ':'
    | UnknownName           // the string '<unknown-type>', the table's entry for '?'
    | Ptr(target: CType)    // ctypes.POINTER(target)
    | Structure             // the bare class ctypes.Structure

  /** The exceptions `objc_type_to_ctype` can raise. */
  datatype DecodeError =
    | KeyError(key: string)   // a one-character encoding that is not in the table
    | IndexError              // the empty encoding: `t[0]` is out of range
    | UnknownType(t: string)  // ValueError("Unknown type {t}")

  /** SIMPLE_TYPES: the entry for a one-character encoding, or None when there is none. */
  function SimpleType(c: char): Option<CType> {
    match c
    case 'c' => Some(Prim(Char))
    case 'i' => Some(Prim(Int))
    case 's' => Some(Prim(Short))
    case 'l' => Some(Prim(Long))
    case 'q' => Some(Prim(LongLong))
    case 'C' => Some(Prim(UInt8))
    case 'I' => Some(Prim(UInt))
    case 'S' => Some(Prim(UShort))
    case 'L' => Some(Prim(ULong))
    case 'Q' => Some(Prim(ULongLong))
    case 'f' => Some(Prim(Float))
    case 'd' => Some(Prim(Double))
    case 'B' => Some(Prim(Bool))
    case 'v' => Some(Void)
    case '*' => Some(Prim(CharP))
    case '@' => Some(Prim(VoidP))
    case '#' => Some(ClassName)
    case ':' => Some(SelName)
    case '?' => Some(UnknownName)
    case _ => None
  }

  /**
   * ctypes.POINTER(t). ctypes answers POINTER(None) with c_void_p itself,
   * so a pointer to void is the same descriptor as '@'.
   */
  function PointerTo(t: CType): CType {
    if t == Void then Prim(VoidP) else Ptr(t)
  }

  /** The descriptors `objc_type_to_ctype` can produce: no pointer to `None`. */
  predicate Canonical(t: CType) {
    match t
    case Ptr(target) => target != Void && Canonical(target)
    case _ => true
  }

  /** `s` ends with `suffix`. */
  predicate IsSuffix(suffix: string, s: string) {
    |suffix| <= |s| && s[|s| - |suffix|..] == suffix
  }

  /** The aggregate form `{name=...}`, accepted as an opaque structure. */
  predicate IsStructForm(t: string) {
    |t| > 1 && t[0] == '{' && '=' in t && t[|t| - 1] == '}'
  }

  /**
   * An encoding of more than one character that none of the rules accepts:
   * no pointer or qualifier prefix, and not the aggregate form.
   */
  predicate IsUnrecognized(t: string) {
    |t| > 1 && t[0] != '^' && t[0] != 'r' && t[0] != 'V' && !IsStructForm(t)
  }

  /**
   * objc_type_to_ctype. Exceptions raised by a recursive call propagate
   * unchanged, so the error always names a suffix of the input.
   */
  function Decode(t: string): (r: Result<CType, DecodeError>)
    ensures r.Ok? ==> Canonical(r.value)
    ensures r == Err(IndexError) <==> t == []
    ensures r.Err? && r.error.KeyError? ==>
              |r.error.key| == 1 && SimpleType(r.error.key[0]).None? && IsSuffix(r.error.key, t)
    ensures r.Err? && r.error.UnknownType? ==>
              IsUnrecognized(r.error.t) && IsSuffix(r.error.t, t)
    decreases |t|
  {
    if |t| == 1 then
      match SimpleType(t[0])
      case Some(entry) => Ok(entry)
      case None => assert IsSuffix(t, t); Err(KeyError(t))
    else if |t| == 0 then
      Err(IndexError)
    else if t[0] == '^' then
      match Decode(t[1..])
      case Ok(inner) => Ok(PointerTo(inner))
      case Err(e) => SuffixOfTail(e, t); Err(e)
    else if t[0] == 'r' || t[0] == 'V' then
      var r := Decode(t[1..]);
      if r.Err? then SuffixOfTail(r.error, t); r else r
    else if IsStructForm(t) then
      Ok(Structure)
    else
      assert IsSuffix(t, t);
      Err(UnknownType(t))
  }

  /** What an error names, if anything, stays a suffix when one character is put in front. */
  lemma SuffixOfTail(e: DecodeError, t: string)
    requires |t| >= 1
    ensures e.KeyError? && IsSuffix(e.key, t[1..]) ==> IsSuffix(e.key, t)
    ensures e.UnknownType? && IsSuffix(e.t, t[1..]) ==> IsSuffix(e.t, t)
  {
    var u := if e.KeyError? then e.key else if e.UnknownType? then e.t else [];
    if IsSuffix(u, t[1..]) {
      assert t[|t| - |u|..] == t[1..][|t[1..]| - |u|..];
    }
  }

  /**
   * `[objc_type_to_ctype(t) for t in ts]`: the first encoding that fails,
   * in list order, raises its error.
   */
  function DecodeAll(ts: seq<string>): (r: Result<seq<CType>, DecodeError>)
    ensures r.Ok? ==> |r.value| == |ts| && forall i :: 0 <= i < |ts| ==> Decode(ts[i]) == Ok(r.value[i])
    ensures r.Err? ==> exists i :: 0 <= i < |ts| && Decode(ts[i]) == Err(r.error)
                                  && forall j :: 0 <= j < i ==> Decode(ts[j]).Ok?
  {
    if ts == [] then Ok([])
    else
      match Decode(ts[0])
      case Err(e) => Err(e)
      case Ok(head) =>
        match DecodeAll(ts[1..])
        case Err(e) =>
          assert forall i :: 1 <= i < |ts| ==> ts[i] == ts[1..][i - 1];
          Err(e)
        case Ok(tail) => Ok([head] + tail)
  }

  // ---------------------------------------------------------------------
  // A canonical encoder, the decoder's partner

  /** The table's key for each simple kind. */
  function KindCode(k: Kind): char {
    match k
    case Char => 'c'
    case Int => 'i'
    case Short => 's'
    case Long => 'l'
    case LongLong => 'q'
    case UInt8 => 'C'
    case UInt => 'I'
    case UShort => 'S'
    case ULong => 'L'
    case ULongLong => 'Q'
    case Float => 'f'
    case Double => 'd'
    case Bool => 'B'
    case CharP => '*'
    case VoidP => '@'
  }

  /** One encoding of each canonical descriptor; a structure is written `{?=}`. */
  function Encode(t: CType): (e: string)
    requires Canonical(t)
    ensures |e| >= 1
  {
    match t
    case Prim(k) => [KindCode(k)]
    case Void => "v"
    case ClassName => "#"
    case SelName => ":"
    case UnknownName => "?"
    case Structure => "{?=}"
    case Ptr(target) => "^" + Encode(target)
  }

  // ---------------------------------------------------------------------
  // Properties of the decoder

  /** A one-character encoding decodes to its table entry, or fails with KeyError. */
  lemma DecodeSingle(c: char)
    ensures SimpleType(c).Some? ==> Decode([c]) == Ok(SimpleType(c).value)
    ensures SimpleType(c).None? ==> Decode([c]) == Err(KeyError([c]))
  {
  }

  /** `^X` decodes to a pointer to what X decodes to; errors in X propagate. */
  lemma DecodeCaret(x: string)
    requires |x| >= 1
    ensures Decode("^" + x) == match Decode(x) case Ok(t) => Ok(PointerTo(t)) case Err(e) => Err(e)
  {
    assert ("^" + x)[1..] == x;
  }

  /** The `r` (const) and `V` (oneway) qualifiers are discarded. */
  lemma DecodeQualifier(q: char, x: string)
    requires q == 'r' || q == 'V'
    requires |x| >= 1
    ensures Decode([q] + x) == Decode(x)
  {
    assert ([q] + x)[1..] == x;
  }

  /** Any string made of the qualifier letters `r` and `V` is discarded as a whole. */
  lemma {:induction false} DecodeQualifiers(qs: string, x: string)
    requires forall i :: 0 <= i < |qs| ==> qs[i] == 'r' || qs[i] == 'V'
    requires |x| >= 1
    ensures Decode(qs + x) == Decode(x)
  {
    if qs != [] {
      DecodeQualifiers(qs[1..], x);
      assert qs + x == [qs[0]] + (qs[1..] + x);
      DecodeQualifier(qs[0], qs[1..] + x);
    } else {
      assert qs + x == x;
    }
  }

  /** n `^` characters. */
  function Carets(n: nat): (s: string)
    ensures |s| == n && forall i :: 0 <= i < n ==> s[i] == '^'
  {
    if n == 0 then [] else "^" + Carets(n - 1)
  }

  /** n pointer wrappers around t, as ctypes.POINTER nests them. */
  function PointerDepth(n: nat, t: CType): CType {
    if n == 0 then t else PointerTo(PointerDepth(n - 1, t))
  }

  /** Nesting depth n of `^` gives n pointer wrappers. */
  lemma {:induction false} DecodePointers(n: nat, x: string)
    requires |x| >= 1
    ensures Decode(Carets(n) + x) ==
              match Decode(x) case Ok(t) => Ok(PointerDepth(n, t)) case Err(e) => Err(e)
  {
    if n > 0 {
      DecodePointers(n - 1, x);
      assert Carets(n) + x == "^" + (Carets(n - 1) + x);
      DecodeCaret(Carets(n - 1) + x);
    } else {
      assert Carets(n) + x == x;
    }
  }

  /** The aggregate form is an opaque structure; other unprefixed multi-character forms fail. */
  lemma DecodeStructOrUnknown(t: string)
    requires |t| > 1 && t[0] != '^' && t[0] != 'r' && t[0] != 'V'
    ensures IsStructForm(t) ==> Decode(t) == Ok(Structure)
    ensures !IsStructForm(t) ==> Decode(t) == Err(UnknownType(t))
  {
  }

  /** The table maps each kind's key back to the kind. */
  lemma SimpleTypeKindCode(k: Kind)
    ensures SimpleType(KindCode(k)) == Some(Prim(k))
  {
  }

  /** Decoding inverts the canonical encoder. */
  lemma {:induction false} DecodeEncode(t: CType)
    requires Canonical(t)
    ensures Decode(Encode(t)) == Ok(t)
  {
    match t
    case Prim(k) =>
      SimpleTypeKindCode(k);
      DecodeSingle(KindCode(k));
    case Void => DecodeSingle('v');
    case ClassName => DecodeSingle('#');
    case SelName => DecodeSingle(':');
    case UnknownName => DecodeSingle('?');
    case Structure =>
      assert IsStructForm("{?=}") by { assert "{?=}"[2] == '='; }
      DecodeStructOrUnknown("{?=}");
    case Ptr(target) =>
      DecodeEncode(target);
      DecodeCaret(Encode(target));
  }

  /** Every successful decoding is recovered from its canonical encoding. */
  lemma DecodeReencode(s: string)
    requires Decode(s).Ok?
    ensures Decode(Encode(Decode(s).value)) == Decode(s)
  {
    DecodeEncode(Decode(s).value);
  }
}

=== FILE: wrappers.dfy ===
/** Option and Result, the failure-carrying types the other modules return. */
module Wrappers {

  datatype Option<+T> = None | Some(value: T)

  /** A computation that either produced a value or raised the given error. */
  datatype Result<+T, +E> = Ok(value: T) | Err(error: E) {

    predicate IsFailure() {
      Err?
    }

    function PropagateFailure<U>(): Result<U, E>
      requires Err?
    {
      Err(error)
    }

    function Extract(): T
      requires Ok?
    {
      value
    }
  }
}
